=== FILE: README.md ===
# linggowhale-notify: the incremental-ingest decision procedure in Dafny

This project models the core of linggowhale-notify. That core is the part of
`main.py` and `main_bak.py` that decides what happens once the network is
taken away. It covers five things:

- **The LingoWhale feed walk** (`fetch_feed_data`). It requests one page of
  the subscription feed for a cursor and checks each item's `entry_id`
  against the dedup ledger, the D1 table `processed_articles`.
  - For an unseen item it fetches the entry detail. If the detail is truthy,
    it calls the Coze workflow with `html_content or content` and then inserts
    the id.
  - A seen item only clears `should_find_next_page`. The loop goes on.
  - The next page is requested only if no item of the page was seen and the
    page returned a non-empty `cursor`.
- **Refresh-token rotation** (`get_coze_auth`). It reads the stored refresh
  token from Cloudflare KV and raises if it is absent or empty. Otherwise it
  exchanges the token, writes the new refresh token back, and only then
  returns the access token.
- **D1 reply unwrapping** (`d1_query`). A failed query and an empty result
  both yield `[]`, so a failed check reads as "not yet processed".
- **Entry-detail classification** (`fetch_entry_detail`). Code 22003 sends a
  token alert and yields nothing. Code 0 yields `data`. Anything else yields
  nothing.
- **The earlier RSS variant** (`main` in `main_bak.py`). After the rotation,
  every entry of every configured feed is deduplicated, and every new entry is
  sent to the workflow and then inserted. There is no early stop, and any
  exception ends the whole run.

The network is replaced by values:
- the feed and detail endpoints are maps from request to reply;
- D1 is a function from a statement and the current ledger to a reply, so a
  failing or malformed D1 can be modelled;
- the token exchange is a function;
- the outcome of a KV write and of a `main_bak.py` workflow call are
  parameters.

Exceptions that the Python code catches are modelled where they change what
happens next:
- an undecodable D1 body;
- a null `url_info`;
- a null `content` (`len(None)`);
- a workflow call that raises in `main_bak.py`.

Each of these ends the walk or the run.

Modules:
- `Values`: `Option`, the three states of a JSON member (`Field`), and a
  call's `Outcome`.
- `D1`: the dedup ledger facade.
- `Workflow`: the record of a workflow call.
- `EntryDetail`: detail classification and the text that is sent.
- `CozeAuth`: the rotation. It has a pure specification `Rotate` and a class
  `CredentialStore` whose method is proved against it.
- `FeedWalk`: the pure specification of `fetch_feed_data`, with the lemmas
  about it.
- `FeedWalker`: the class `Walker`. Its ledger and call logs are fields, and
  its page and item loops are proved to end in the state `FeedWalk.Walk`
  describes.
- `RssSync`: `main_bak.py`, as a specification, lemmas, the class `Syncer`
  with the nested loops, and `RunSync`.

Behaviour of the code worth noting:
- `main.py` inserts a new item with a detail into the ledger whether the
  workflow call succeeded, raised, or was skipped for a missing token or
  workflow id (main.py:224-241).
- `set_kv_value` never checks the PUT status (main.py:28-31). A rejected write
  therefore still hands out the access token, while the store keeps the
  refresh token that was just consumed (main.py:119-124).
- The walk stops requesting pages after a seen item (main.py:243, 247). Every
  item of that page is still checked, and new ones are still processed,
  because the loop has no `break` (main.py:202-244).

## Model

| member | source | states |
|---|---|---|
| `D1.Rows` | main.py:35-48 | an undecodable body raises; `success` false, an absent/null or empty `result` give `[]`; a successful reply whose first statement carries rows yields exactly those rows, and a non-empty list comes only from such a reply |
| `D1.LedgerAfterInsert` | main.py:241 | an INSERT gives the ledger plus the item's id when D1 reports success, the unchanged ledger on a reported failure, and raises exactly on an undecodable body |
| `D1.Seen` | main.py:207-208 | the dedup check raises exactly on an undecodable SELECT body; otherwise the id reads as seen iff `d1_query` returned a non-empty row list, so a reply with `success` false reads as not seen (that a working D1 makes it exactly ledger membership is `D1.HealthyLedger`) |
| `D1.HealthyLedger` | main.py:207-208 | against a working D1, the dedup check is exactly ledger membership and an insert adds the id |
| `D1.FailedQueryReadsAsUnseen` | main.py:41-43 | a query with `success` false makes the item read as not yet processed, whatever the ledger holds |
| `EntryDetail.FetchEntryDetail` | main.py:143-165 | the alert is sent iff the code is 22003; a detail comes back only for code 0 (the `data` object, `{}` when absent, nothing when null); any other code or an exception yields nothing; a truthy detail is the reply's `data` |
| `EntryDetail.HasDetail` | main.py:213 | the truthiness test on the fetched detail: truthy iff a dict came back and it is not `{}`, so a null `url_info` or a dict with other members only is truthy |
| `EntryDetail.ContentChoice` | main.py:230 | `html_content or content`: the HTML text when it is a non-empty string, the plain text otherwise |
| `EntryDetail.WorkflowContent` | main.py:214-230 | the text sent for a detail: `""` when `url_info` is absent; a raise exactly when `url_info` or `content` is null; otherwise the content choice over the two fields with `""` for an absent one |
| `CozeAuth.StoredSeed` | main.py:112-113 | the stored refresh token counts as present iff the key exists with a non-empty value |
| `CozeAuth.Rotate` | main.py:110-124 | no seed: raise with no call to the authority and nothing written; a seed is exchanged first, before any write; a failed exchange raises with the store untouched and nothing written; a write that raises ends the run with no token after exactly the exchange and that write; the store changes only by the new refresh token under the fixed key; an access token is returned only as the last step after the write of the matching refresh token; it is returned whenever neither the exchange nor the write raises; a stored write replaces the seed by the new refresh token |
| `CozeAuth.NextRunUsesNewSeed` | main.py:121-122 | after a stored write, the next run starts from the new refresh token (or raises if the authority returned an empty one) |
| `CozeAuth.RejectedWriteKeepsConsumedSeed` | main.py:28-31 | since the PUT status is never checked, a rejected write still returns the access token while the store keeps the consumed seed |
| `CozeAuth.CredentialStore.GetCozeAuth` | main_bak.py:53-68 | the store method ends with the result, store and event log that `Rotate` gives (main.py:110-124 is the same code) |
| `FeedWalk.EffectiveChannels` | main.py:180 | the payload's channel list is never empty: the given ids, or the single default channel when none are given |
| `FeedWalk.PageRequest` | main.py:175-181 | the payload posted for a cursor: that cursor, sort type 2, limit 10, no unread filter, and the given channel ids, or exactly the default channel when none are given |
| `FeedWalk.MayDispatch` | main.py:224 | the workflow is called iff both the Coze token and the workflow id are present and non-empty |
| `FeedWalk.VisitItem` | main.py:203-244 | one loop body makes no page request, adds at most the item's own id to the ledger, and changes nothing for a seen item; it makes at most one workflow call, and only with a token and workflow id and a truthy, readable detail: the call carries the detail's `html_content or content`, the item's title, the run's token, `space_id` and `parent_wiki_token`; the dedup rule itself is `SeenItemUntouched`, `InsertOnlyWhenUnseenWithDetail`, `NewItemRecordedEitherWay` and `SmoothVisit` |
| `FeedWalk.ScanItems` | main.py:200-244 | the item loop makes no page request, only adds to the ledger, and makes at most one workflow call per item; its order and early exit are `ScanSplit`, `SeenItemDoesNotBreak` and `ScanAbsorbsFailure` |
| `FeedWalk.Walk` | main.py:169-260 | the page walk only adds to the ledger, makes at least one request when it has budget and at most one per unit of budget, and runs out of budget only after spending all of it; its request chain and stop rule are `RequestChain` and `LedgerHitStopsPaging` |
| `FeedWalk.SeenItemUntouched` | main.py:242-244 | an item reported as already processed gets no detail fetch, no workflow call and no insert |
| `FeedWalk.InsertOnlyWhenUnseenWithDetail` | main.py:207-213 | the ledger gains at most the item's id, and only when the check reported it absent and the detail was truthy; an empty or missing detail leaves it unchanged |
| `FeedWalk.NewItemRecordedEitherWay` | main.py:224-241 | for an unseen item with a usable detail, the insert happens whether the workflow call was made or skipped for a missing token or workflow id |
| `FeedWalk.VisitGrows` | main.py:202-244 | one item visit only adds to the ledger and appends to the logs, and makes no page request |
| `FeedWalk.ScanGrows` | main.py:202-244 | visiting a page's items only adds to the ledger and appends to the logs, and makes no page request |
| `FeedWalk.WalkGrows` | main.py:169-260 | a whole walk never removes a ledger entry and only appends requests, calls and alerts |
| `FeedWalk.ScanSplit` | main.py:202-244 | the items are visited strictly in order: visiting `xs + ys` is visiting `xs` and then, unless it raised, `ys` from where it left off |
| `FeedWalk.SeenItemDoesNotBreak` | main.py:242-244 | a seen item does not end the loop: the items after it are visited exactly as if it were not on the page, and the page is marked as having a seen item |
| `FeedWalk.ScanAbsorbsFailure` | main.py:259-260 | once an item raises, the rest of the page is not visited |
| `FeedWalk.HealthySeenDetected` | main.py:200-243 | against a working D1, a page holding an id already in the ledger is marked as having a seen item (unless an earlier item raised) |
| `FeedWalk.LedgerHitStopsPaging` | main.py:247 | against a working D1, if the first page holds an id already in the ledger, the walk makes exactly one request |
| `FeedWalk.RequestChain` | main.py:247-254 | the first request is for the given cursor; every request carries the same channel ids, sort type 2, limit 10 and no unread filter; each next one is for the non-empty cursor of a code-0 page; at most one request per unit of budget |
| `FeedWalk.VisitKeepsSentOnce` | main.py:207-241 | against a working D1, one item visit keeps the invariant that every item sent since the start was absent then, is recorded now, and was sent once |
| `FeedWalk.ScanKeepsSentOnce` | main.py:202-244 | against a working D1, visiting a page keeps that invariant |
| `FeedWalk.WalkKeepsSentOnce` | main.py:246-254 | against a working D1, following the next pages keeps that invariant |
| `FeedWalk.HealthyWalkSendsOnlyUnseenOnce` | main.py:207-244 | against a working D1, a walk sends to the workflow only items absent from the ledger at its start, records each of them, and sends none twice |
| `FeedWalk.SmoothVisit` | main.py:207-241 | against a working D1, with a token and a workflow id, and a usable detail if the item is not recorded, an item does not raise, ends up in the ledger, and is sent to the workflow exactly when it was not recorded before |
| `FeedWalk.SmoothStep` | main.py:207-241 | under the same conditions, one item's visit adds its id to the ledger and adds it to the ids sent since the page began exactly when it was not recorded |
| `FeedWalk.SmoothPageRecordsAll` | main.py:202-244 | every new item is processed: against a working D1, with a token and a workflow id and usable details for the items not yet recorded, a page scan does not abort, records every item of the page, and calls the workflow for exactly the ids not recorded before |
| `FeedWalker.Walker.Visit` | main.py:202-244 | one loop body updates the ledger, call log and alert log to exactly what `VisitItem` gives |
| `FeedWalker.Walker.ScanPage` | main.py:200-244 | the item loop, left on the first exception, ends in the state and flags `ScanItems` gives, and the ledger only grows |
| `FeedWalker.Walker.FetchFeedData` | main.py:169-260 | the page loop ends in the state and with the stop reason `Walk` gives for the same cursor and budget, and the ledger only grows |
| `RssSync.ArticleBody` | main_bak.py:88-92 | the body is the first content part's value when `content` is present and non-empty, else the summary if present, else `""` |
| `RssSync.SyncEntry` | main_bak.py:84-109 | one entry leaves the ledger alone or adds its own id, makes no call or exactly the call for this entry, and inserts only after a call that returned; the skip rule is `SeenEntrySkipped` |
| `RssSync.SyncEntries` | main_bak.py:82-112 | the entry loop only adds ids of its own entries to the ledger and makes at most one workflow call per entry |
| `RssSync.SyncConfig` | main_bak.py:80-112 | a config without `rss_url` raises (the run fails, nothing changes); otherwise the ledger only gains ids of that feed's entries |
| `RssSync.SyncConfigs` | main_bak.py:80-112 | the config loop only adds ids of the configured feeds' entries to the ledger; its order and early stop are `ConfigsInOrder` and `ConfigFailureIsFinal` |
| `RssSync.SeenEntrySkipped` | main_bak.py:84-85 | an entry reported as already processed gets no workflow call and no insert |
| `RssSync.InsertOnlyAfterCallReturns` | main_bak.py:95-109 | the ledger gains an entry only after its workflow call returned; a call that raises fails the run with nothing inserted |
| `RssSync.ConfigsInOrder` | main_bak.py:80-82 | configured feeds are handled strictly one after the other, each from the state the previous one left, unless it failed |
| `RssSync.ConfigFailureIsFinal` | main_bak.py:111-112 | once a feed fails, the later feeds are neither read nor recorded |
| `RssSync.EntryFailureIsFinal` | main_bak.py:82-112 | once an entry fails, the later entries of the feed are untouched |
| `RssSync.SmoothFeedRecordsAll` | main_bak.py:82-109 | with a working D1 and workflow, one feed's pass records every entry id and calls the workflow for exactly the ids not recorded before |
| `RssSync.SmoothEntryStep` | main_bak.py:84-109 | with a working D1 and workflow, one entry does not fail, ends up recorded, and adds its id to the ids sent since the feed began exactly when it was not recorded |
| `RssSync.SmoothRunRecordsAll` | main_bak.py:80-109 | there is no early stop: with a working D1 and workflow, the run records the entries of every configured feed and calls the workflow for exactly the ids not recorded before |
| `RssSync.Syncer.SyncOne` | main_bak.py:84-109 | one entry updates the ledger and call log to exactly what `SyncEntry` gives |
| `RssSync.Syncer.SyncFeed` | main_bak.py:82-109 | the loop over one feed's entries, left on the first exception, ends in the state `SyncEntries` gives |
| `RssSync.Syncer.SyncFeeds` | main_bak.py:80-109 | the nested loops, left on the first exception, end in the state `SyncConfigs` gives |
| `RssSync.RunSync` | main_bak.py:72-112 | the rotation runs first; if it raises, the run fails with the ledger and call log untouched; otherwise the feeds are synced with the returned access token |

## Left out

- HTTP, Cloudflare KV and D1, the Feishu webhook and the Coze SDK are not called. They are replaced by maps, functions and outcome parameters.
- SQL strings and their quoting are not modelled. The ledger is a set of ids.
- A malformed reply to an INSERT is assumed to leave the ledger unchanged.
- `get_lingowhale_tokens` (main.py:94-106) is not modelled. It only reads the detail request's headers from KV, and its exceptions are not modelled either.
- The Feishu card payload and the timestamp (main.py:52-90) are not modelled. A 22003 alert is recorded as the entry id it was sent for, and notification failures are swallowed in the source anyway.
- The outcome of the workflow call in main.py is not part of the model. The source catches it and only prints it (main.py:236-238), so it cannot change the ledger, the logs or the paging.
- `FeedWalker.Walker.FetchFeedData` follows at most `fuel` pages. The source recurses without a bound, so `OutOfFuel` is a stop the source does not have; the Python recursion limit is not modelled.
- Item and entry fields of the wrong JSON type are not modelled: a null `entry_id`, a non-object `data` or `url_info`, a missing `entry.id` or `entry.title` attribute in feedparser.
- `author` and `publish_time` are not modelled. They are only printed.
- `main` in main.py (main.py:263-282) is not modelled. It loads `config.json`, runs the rotation and walks each configured feed from the first page, and it prints every exception rather than propagating it.
- Loading `config.json` in main_bak.py is not modelled. The configured feeds are a parameter of `RssSync.RunSync`.
- All printing and logging is left out.
- coze_auth.py (a Flask OAuth authorization-code flow) is not part of this model.
- subscription.py (an abandoned draft of `fetch_feed_data` that does not parse) is not part of this model.
- Concurrency, locks, worker pools and retry on authentication failure are not modelled, because none of them exists in the code.

=== FILE: coze_auth.dfy ===
/** Refresh-token rotation (`get_coze_auth`, identical in main.py and
    main_bak.py): read the stored refresh token from the key-value store,
    exchange it at the OAuth authority for a new pair, write the new refresh
    token back, and only then hand out the access token. */
module CozeAuth {
  import opened Values

  const RefreshTokenKey := "COZE_LINGGO_REFRESH_TOKEN"

  /** The pair `refresh_access_token` returns. */
  datatype TokenPair = TokenPair(accessToken: string, refreshToken: string)

  /** The token exchange: `None` when the authority call raises. */
  type Exchange = string -> Option<TokenPair>

  /** What `set_kv_value` does: the value is stored, the store answers with an
      error status (which the program never inspects), or the request raises. */
  datatype PutOutcome = PutStored | PutRejected | PutRaised

  /** Calls made to the outside, in order. */
  datatype Event = Exchanged(refreshToken: string) | Wrote(key: string, value: string)

  /** The result of one rotation, the store after it and the events so far. */
  datatype Rotation = Rotation(result: Outcome<string>, kv: map<string, string>, events: seq<Event>)

  /** The seed `get_kv_value` yields when it is truthy: a missing key (a non-200
      read) and an empty value both count as absent. */
  function StoredSeed(kv: map<string, string>): (r: Option<string>)
    ensures r.Some? <==> RefreshTokenKey in kv && kv[RefreshTokenKey] != ""
    ensures r.Some? ==> r.value == kv[RefreshTokenKey]
  {
    if RefreshTokenKey in kv && kv[RefreshTokenKey] != "" then Some(kv[RefreshTokenKey]) else None
  }

  /** One run of `get_coze_auth`. */
  function Rotate(kv: map<string, string>, events: seq<Event>, exchange: Exchange, put: PutOutcome): (r: Rotation)
    // no seed: raise before any call to the authority
    ensures StoredSeed(kv).None? ==> r == Rotation(Raised, kv, events)
    // the seed is exchanged first, before anything is written
    ensures StoredSeed(kv).Some? ==>
      |r.events| >= |events| + 1 && r.events[..|events| + 1] == events + [Exchanged(StoredSeed(kv).value)]
    // the store changes only by the new refresh token under the fixed key
    ensures r.kv == kv || (StoredSeed(kv).Some? && exchange(StoredSeed(kv).value).Some? &&
                           r.kv == kv[RefreshTokenKey := exchange(StoredSeed(kv).value).value.refreshToken])
    // an access token is handed out only after the write of its refresh token
    ensures r.result.Returned? ==>
      StoredSeed(kv).Some? && exchange(StoredSeed(kv).value).Some? &&
      r.result.value == exchange(StoredSeed(kv).value).value.accessToken &&
      r.events == events + [Exchanged(StoredSeed(kv).value),
                            Wrote(RefreshTokenKey, exchange(StoredSeed(kv).value).value.refreshToken)]
    // when neither the exchange nor the write raises, the access token is handed out
    ensures StoredSeed(kv).Some? && exchange(StoredSeed(kv).value).Some? && put != PutRaised ==>
      r.result == Returned(exchange(StoredSeed(kv).value).value.accessToken)
    // a stored write replaces the seed by the new refresh token
    ensures StoredSeed(kv).Some? && exchange(StoredSeed(kv).value).Some? && put == PutStored ==>
      r.kv == kv[RefreshTokenKey := exchange(StoredSeed(kv).value).value.refreshToken]
    // a failed exchange raises with nothing written and no second exchange
    ensures StoredSeed(kv).Some? && exchange(StoredSeed(kv).value).None? ==>
      r == Rotation(Raised, kv, events + [Exchanged(StoredSeed(kv).value)])
    // a write that raises hands out no token
    ensures StoredSeed(kv).Some? && exchange(StoredSeed(kv).value).Some? && put == PutRaised ==>
      r == Rotation(Raised, kv, events + [Exchanged(StoredSeed(kv).value),
                                          Wrote(RefreshTokenKey, exchange(StoredSeed(kv).value).value.refreshToken)])
  {
    match StoredSeed(kv)
    case None => Rotation(Raised, kv, events)
    case Some(seed) =>
      var asked := events + [Exchanged(seed)];
      match exchange(seed)
      case None => Rotation(Raised, kv, asked)
      case Some(pair) =>
        var wrote := asked + [Wrote(RefreshTokenKey, pair.refreshToken)];
        match put
        case PutRaised => Rotation(Raised, kv, wrote)
        case PutStored => Rotation(Returned(pair.accessToken), kv[RefreshTokenKey := pair.refreshToken], wrote)
        case PutRejected => Rotation(Returned(pair.accessToken), kv, wrote)
  }

  /** When the write is stored, the next run starts from the new refresh
      token (or raises, if the authority returned an empty one). */
  lemma NextRunUsesNewSeed(kv: map<string, string>, events: seq<Event>, exchange: Exchange)
    requires Rotate(kv, events, exchange, PutStored).result.Returned?
    ensures var pair := exchange(StoredSeed(kv).value).value;
      var next := Rotate(kv, events, exchange, PutStored).kv;
      StoredSeed(next) == (if pair.refreshToken == "" then None else Some(pair.refreshToken))
  {
  }

  /** The write's status is never checked: when the store rejects it, the
      access token is still handed out while the store keeps the seed that the
      exchange just consumed. */
  lemma RejectedWriteKeepsConsumedSeed(kv: map<string, string>, events: seq<Event>, exchange: Exchange)
    requires StoredSeed(kv).Some? && exchange(StoredSeed(kv).value).Some?
    ensures var r := Rotate(kv, events, exchange, PutRejected);
      r.result == Returned(exchange(StoredSeed(kv).value).value.accessToken) &&
      StoredSeed(r.kv) == StoredSeed(kv)
  {
  }

  /** The durable key-value store together with the log of outside calls. */
  class CredentialStore {
    var kv: map<string, string>
    var events: seq<Event>

    constructor (kv: map<string, string>)
      ensures this.kv == kv && events == []
    {
      this.kv := kv;
      events := [];
    }

    /** `get_coze_auth`: the stored seed is read, exchanged, and its successor
        written back before the access token is returned. */
    method GetCozeAuth(exchange: Exchange, put: PutOutcome) returns (r: Outcome<string>)
      modifies this
      ensures Rotation(r, kv, events) == Rotate(old(kv), old(events), exchange, put)
    {
      var seed := StoredSeed(kv);
      if seed.None? {
        return Raised;
      }
      var pair := exchange(seed.value);
      events := events + [Exchanged(seed.value)];
      if pair.None? {
        return Raised;
      }
      events := events + [Wrote(RefreshTokenKey, pair.value.refreshToken)];
      match put {
        case PutRaised =>
          return Raised;
        case PutStored =>
          kv := kv[RefreshTokenKey := pair.value.refreshToken];
        case PutRejected =>
      }
      r := Returned(pair.value.accessToken);
    }
  }
}

=== FILE: d1.dfy ===
/** The Cloudflare D1 facade used as the dedup ledger (`d1_query`). The ledger
    table `processed_articles` is a set of entry ids; a query either cannot be
    decoded (the call raises) or yields a JSON body with a `success` flag and a
    list of statement results. */
module D1 {
  import opened Values

  /** The two statements the program sends. */
  datatype Statement = Select(id: string) | Insert(id: string)

  /** One element of the body's `result` list; its `results` member holds the
      selected rows (here, the selected ids). `None` stands for a member that
      is absent or null: both read as "no rows". */
  datatype StatementResult = StatementResult(results: Option<seq<string>>)

  /** A reply of the D1 HTTP API. `Malformed` is a body that `response.json()`
      cannot decode, so `d1_query` raises. `success` is false when the member
      is absent or false. `result` is `None` when absent or null. */
  datatype D1Reply = Malformed | D1Json(success: bool, result: Option<seq<StatementResult>>)

  /** The database as the program sees it: the reply to a statement, given the
      ids the ledger holds when the statement is sent. */
  type Database = (Statement, set<string>) -> D1Reply

  /** The list `d1_query` returns. A failed query (`success` false) and an
      empty `result` list both give the empty list. */
  function Rows(reply: D1Reply): (r: Outcome<seq<string>>)
    ensures r.Raised? <==> reply.Malformed?
    ensures reply.D1Json? && !reply.success ==> r == Returned([])
    ensures reply.D1Json? && (reply.result.None? || reply.result.value == []) ==> r == Returned([])
    ensures r.Returned? && r.value != [] ==>
      reply.D1Json? && reply.success && reply.result.Some? && reply.result.value != [] &&
      reply.result.value[0].results == Some(r.value)
    ensures (reply.D1Json? && reply.success && reply.result.Some? && reply.result.value != [] &&
             reply.result.value[0].results.Some?) ==> r == Returned(reply.result.value[0].results.value)
  {
    match reply
    case Malformed => Raised
    case D1Json(success, result) =>
      if !success then Returned([])
      else if result.None? || |result.value| == 0 then Returned([])
      else
        match result.value[0].results
        case None => Returned([])
        case Some(rows) => Returned(rows)
  }

  /** Whether the dedup check `exists = d1_query("SELECT ...")` treats the id as
      already processed: the returned list is non-empty. */
  function Seen(db: Database, ledger: set<string>, id: string): (r: Outcome<bool>)
    ensures r.Raised? <==> db(Select(id), ledger).Malformed?
    ensures db(Select(id), ledger).D1Json? && !db(Select(id), ledger).success ==> r == Returned(false)
    ensures r == Returned(true) ==> db(Select(id), ledger).D1Json? && db(Select(id), ledger).success
    // `if not exists`: seen iff the query returned rows
    ensures r.Returned? ==> (r.value <==> Rows(db(Select(id), ledger)).value != [])
  {
    match Rows(db(Select(id), ledger))
    case Raised => Raised
    case Returned(rows) => Returned(rows != [])
  }

  /** The ledger after `d1_query("INSERT ...")`: the id is added when D1
      reports success; a failed insert is only logged by the program. */
  function LedgerAfterInsert(db: Database, ledger: set<string>, id: string): (r: Outcome<set<string>>)
    ensures r.Raised? <==> db(Statement.Insert(id), ledger).Malformed?
    ensures r.Returned? && db(Statement.Insert(id), ledger).success ==> r.value == ledger + {id}
    ensures r.Returned? && !db(Statement.Insert(id), ledger).success ==> r.value == ledger
  {
    var reply := db(Statement.Insert(id), ledger);
    match Rows(reply)
    case Raised => Raised
    case Returned(_) => Returned(if reply.success then ledger + {id} else ledger)
  }

  /** The reply of a D1 that works: a select returns the id's row when the
      ledger holds it, an insert succeeds. */
  function HealthyReply(s: Statement, ledger: set<string>): D1Reply {
    match s
    case Select(id) => D1Json(true, Some([StatementResult(Some(if id in ledger then [id] else []))]))
    case Insert(_) => D1Json(true, Some([StatementResult(Some([]))]))
  }

  ghost predicate Healthy(db: Database) {
    forall s, ledger :: db(s, ledger) == HealthyReply(s, ledger)
  }

  /** Against a working D1 the dedup check is exactly ledger membership, and an
      insert adds the id. */
  lemma HealthyLedger(db: Database, ledger: set<string>, id: string)
    requires Healthy(db)
    ensures Seen(db, ledger, id) == Returned(id in ledger)
    ensures LedgerAfterInsert(db, ledger, id) == Returned(ledger + {id})
  {
    assert db(Select(id), ledger) == HealthyReply(Select(id), ledger);
    assert db(Statement.Insert(id), ledger) == HealthyReply(Statement.Insert(id), ledger);
  }

  /** A failed query reads as "not yet processed", whatever the ledger holds. */
  lemma FailedQueryReadsAsUnseen(db: Database, ledger: set<string>, id: string)
    requires db(Select(id), ledger).D1Json? && !db(Select(id), ledger).success
    ensures Seen(db, ledger, id) == Returned(false)
  {
  }
}

=== FILE: entry_detail.dfy ===
/** The LingoWhale entry-detail endpoint (`fetch_entry_detail`) and the
    extraction of the text sent to the workflow. */
module EntryDetail {
  import opened Values

  /** The code the detail endpoint uses for an invalid LingoWhale token. */
  const TokenInvalidCode := 22003
  /** The code of a successful reply. */
  const OkCode := 0

  /** The `url_info` object of a detail; `author` and `publish_time` are only
      printed and are not modelled. */
  datatype UrlInfo = UrlInfo(content: Field<string>, htmlContent: Field<string>)

  /** The `data` object of a detail reply: its `url_info` member and the names
      of its other members (they matter only for its truthiness). */
  datatype Detail = Detail(urlInfo: Field<UrlInfo>, otherKeys: set<string>)

  /** The empty object `{}` that `result.get("data", {})` falls back to. */
  const EmptyDetail := Detail(Missing, {})

  datatype DetailRequest = DetailRequest(entryId: string, entryType: Option<int>)

  /** A reply of the detail endpoint: the request or its decoding raised, or a
      JSON body with a `code` (`None` when absent, null or not an integer) and
      a `data` member. */
  datatype DetailReply = DetailRaised | DetailJson(code: Option<int>, data: Field<Detail>)

  /** What `fetch_entry_detail` returns, and whether it sent the token alert to
      the Feishu webhook. */
  datatype FetchedDetail = FetchedDetail(detail: Option<Detail>, alerted: bool)

  /** Python truthiness of the returned detail: not `None` and not `{}`. */
  predicate HasDetail(d: Option<Detail>): (r: bool)
    ensures d.None? ==> !r
    ensures d == Some(EmptyDetail) ==> !r
    ensures d.Some? && d.value.urlInfo.Present? ==> r
    // a dict is truthy iff it is non-empty
    ensures r <==> d.Some? && d.value != EmptyDetail
  {
    d.Some? && (!d.value.urlInfo.Missing? || d.value.otherKeys != {})
  }

  /** The classification of a detail reply by its code: 22003 alerts and
      returns nothing, 0 returns the data, any other code and any exception
      return nothing. */
  function FetchEntryDetail(reply: DetailReply): (r: FetchedDetail)
    ensures r.alerted <==> reply.DetailJson? && reply.code == Some(TokenInvalidCode)
    ensures r.detail.Some? ==> reply.DetailJson? && reply.code == Some(OkCode)
    ensures reply.DetailJson? && reply.code == Some(OkCode) ==>
      r.detail == match reply.data
                  case Missing => Some(EmptyDetail)
                  case Null => None
                  case Present(d) => Some(d)
    ensures HasDetail(r.detail) ==> reply.DetailJson? && reply.data.Present? && r.detail == Some(reply.data.value)
  {
    match reply
    case DetailRaised => FetchedDetail(None, false)
    case DetailJson(code, data) =>
      if code == Some(TokenInvalidCode) then FetchedDetail(None, true)
      else if code == Some(OkCode) then
        FetchedDetail(match data
                      case Missing => Some(EmptyDetail)
                      case Null => None
                      case Present(d) => Some(d), false)
      else FetchedDetail(None, false)
  }

  /** `html_content or content`: the HTML text when it is a non-empty string,
      the plain text otherwise. */
  function ContentChoice(htmlContent: Field<string>, content: string): (r: string)
    ensures htmlContent.Present? && htmlContent.value != "" ==> r == htmlContent.value
    ensures !(htmlContent.Present? && htmlContent.value != "") ==> r == content
  {
    if htmlContent.Present? && htmlContent.value != "" then htmlContent.value else content
  }

  /** The text a truthy detail contributes to the workflow call. A missing
      `url_info` reads as `{}`; a null `url_info` raises on `.get`, and a null
      `content` raises on `len`, and either exception ends the feed walk. */
  function WorkflowContent(d: Detail): (r: Outcome<string>)
    ensures r.Raised? <==> d.urlInfo.Null? || (d.urlInfo.Present? && d.urlInfo.value.content.Null?)
    ensures d.urlInfo.Missing? ==> r == Returned("")
    ensures r.Returned? && d.urlInfo.Present? ==>
      r.value == ContentChoice(d.urlInfo.value.htmlContent,
                               if d.urlInfo.value.content.Present? then d.urlInfo.value.content.value else "")
  {
    match d.urlInfo
    case Missing => Returned(ContentChoice(Missing, ""))
    case Null => Raised
    case Present(info) =>
      match info.content
      case Null => Raised
      case Missing => Returned(ContentChoice(info.htmlContent, ""))
      case Present(text) => Returned(ContentChoice(info.htmlContent, text))
  }
}

=== FILE: feed_walk.dfy ===
/** The decision procedure of `fetch_feed_data` (main.py) as pure functions:
    one page is requested per cursor, its items are checked against the dedup
    ledger in order, a new item with a detail is sent to the workflow and
    recorded, and the next page is requested only when no item of the page was
    already recorded and the page has a next cursor. The network is replaced by
    the maps and the database oracle held in `Env`. */
module FeedWalk {
  import opened Values
  import opened D1
  import opened Workflow
  import opened EntryDetail

  /** The channel the request falls back to when no channel ids are given. */
  const DefaultChannel := "6813a8c550ec085890ddaf46"
  const SortType := 2
  const PageLimit := 10

  /** The JSON payload of one feed-page request. */
  datatype FeedRequest = FeedRequest(cursor: string, sortType: int, limit: int, filterUnread: bool, channelIds: seq<string>)

  /** One element of `feed_list`. */
  datatype FeedItem = FeedItem(entryId: string, entryType: Option<int>, title: Option<string>)

  /** A reply of the feed endpoint: the request raised (network error, a
      non-2xx status, an undecodable body), or a JSON body. `feedList` and
      `nextCursor` are taken after the defaults `[]` and `""`; a null cursor
      is written `""`, since only its truthiness is used. */
  datatype PageReply = PageRaised | PageJson(code: Option<int>, feedList: seq<FeedItem>, nextCursor: string)

  /** Everything outside the walk: the feed and detail endpoints as maps (a
      request not in the map raises), the D1 database, the `COZE_WORKFLOW_ID`
      setting and the arguments that every recursive call passes on. */
  datatype Env = Env(
    feed: map<FeedRequest, PageReply>,
    details: map<DetailRequest, DetailReply>,
    db: Database,
    workflowId: Option<string>,
    channelIds: seq<string>,
    spaceId: Option<string>,
    parentWikiToken: Option<string>,
    cozeToken: Option<string>)

  /** What the walk leaves behind: the ledger, and the requests, workflow calls
      and token alerts it made, in order. */
  datatype Trace = Trace(ledger: set<string>, requests: seq<FeedRequest>, dispatched: seq<Dispatch>, alerts: seq<string>)

  datatype ItemEnd = ItemNew | ItemSeen | ItemFailed
  datatype ItemResult = ItemResult(trace: Trace, end: ItemEnd)

  /** The state after the items of a page were visited: whether one of them was
      already recorded (`should_find_next_page` cleared) and whether one raised. */
  datatype PageScan = PageScan(trace: Trace, sawSeen: bool, aborted: bool)

  datatype WalkEnd = LastPage | StoppedAtSeen | PageFailed | WalkFailed | OutOfFuel
  datatype WalkResult = WalkResult(trace: Trace, end: WalkEnd)

  /** The `channel_ids` the payload carries. */
  function EffectiveChannels(ids: seq<string>): (r: seq<string>)
    ensures r != []
    ensures ids != [] ==> r == ids
    ensures ids == [] ==> r == [DefaultChannel]
  {
    if ids != [] then ids else [DefaultChannel]
  }

  /** The payload `fetch_feed_data` posts for a cursor. */
  function PageRequest(cursor: string, channelIds: seq<string>): (r: FeedRequest)
    ensures r.cursor == cursor && r.sortType == 2 && r.limit == 10 && !r.filterUnread
    ensures r.channelIds == EffectiveChannels(channelIds)
    ensures r.channelIds != [] && (channelIds != [] ==> r.channelIds == channelIds)
  {
    FeedRequest(cursor, SortType, PageLimit, false, EffectiveChannels(channelIds))
  }

  function PageOf(env: Env, req: FeedRequest): PageReply {
    if req in env.feed then env.feed[req] else PageRaised
  }

  function DetailOf(env: Env, item: FeedItem): DetailReply {
    var req := DetailRequest(item.entryId, item.entryType);
    if req in env.details then env.details[req] else DetailRaised
  }

  /** `coze_access_token and COZE_WORKFLOW_ID`. */
  predicate MayDispatch(env: Env): (r: bool)
    ensures r <==> env.cozeToken.Some? && env.cozeToken.value != "" && env.workflowId.Some? && env.workflowId.value != ""
  {
    Truthy(env.cozeToken) && Truthy(env.workflowId)
  }

  function CallFor(env: Env, item: FeedItem, content: string): WorkflowCall
    requires MayDispatch(env)
  {
    WorkflowCall(env.workflowId, env.cozeToken.value, content, item.title, env.spaceId, env.parentWikiToken)
  }

  /** One iteration of the loop over `feed_list`. The workflow call's own
      failure is caught and printed, so it does not appear here; the insert
      follows whether or not the call was made. */
  function VisitItem(env: Env, t: Trace, item: FeedItem): (r: ItemResult)
    ensures r.trace.requests == t.requests
    ensures r.trace.ledger == t.ledger || r.trace.ledger == t.ledger + {item.entryId}
    // at most one workflow call, and it carries this item's id
    ensures t.dispatched <= r.trace.dispatched && |r.trace.dispatched| <= |t.dispatched| + 1
    ensures |r.trace.dispatched| > |t.dispatched| ==> r.trace.dispatched[|t.dispatched|].entryId == item.entryId
    // the call carries the detail's text, the item's title and the run's settings
    ensures |r.trace.dispatched| > |t.dispatched| ==>
      && MayDispatch(env)
      && HasDetail(FetchEntryDetail(DetailOf(env, item)).detail)
      && WorkflowContent(FetchEntryDetail(DetailOf(env, item)).detail.value).Returned?
      && r.trace.dispatched == t.dispatched +
           [Dispatch(item.entryId, CallFor(env, item, WorkflowContent(FetchEntryDetail(DetailOf(env, item)).detail.value).value))]
    ensures r.end == ItemSeen ==> r.trace == t
  {
    match Seen(env.db, t.ledger, item.entryId)
    case Raised => ItemResult(t, ItemFailed)
    case Returned(seen) =>
      if seen then ItemResult(t, ItemSeen)
      else
        var fetched := FetchEntryDetail(DetailOf(env, item));
        var t1 := if fetched.alerted then t.(alerts := t.alerts + [item.entryId]) else t;
        if !HasDetail(fetched.detail) then ItemResult(t1, ItemNew)
        else
          match WorkflowContent(fetched.detail.value)
          case Raised => ItemResult(t1, ItemFailed)
          case Returned(content) =>
            var t2 := if MayDispatch(env)
                      then t1.(dispatched := t1.dispatched + [Dispatch(item.entryId, CallFor(env, item, content))])
                      else t1;
            match LedgerAfterInsert(env.db, t2.ledger, item.entryId)
            case Raised => ItemResult(t2, ItemFailed)
            case Returned(ledger) => ItemResult(t2.(ledger := ledger), ItemNew)
  }

  /** The loop over `feed_list`, by prefixes: an exception leaves the loop, a
      seen item only clears the flag. */
  function ScanItems(env: Env, t: Trace, items: seq<FeedItem>): (r: PageScan)
    ensures r.trace.requests == t.requests
    ensures t.ledger <= r.trace.ledger
    // at most one workflow call per item of the page
    ensures |t.dispatched| <= |r.trace.dispatched| <= |t.dispatched| + |items|
    decreases |items|
  {
    if items == [] then PageScan(t, false, false)
    else
      var prev := ScanItems(env, t, items[..|items| - 1]);
      if prev.aborted then prev
      else
        var r := VisitItem(env, prev.trace, items[|items| - 1]);
        PageScan(r.trace, prev.sawSeen || r.end == ItemSeen, r.end == ItemFailed)
  }

  /** `fetch_feed_data(cursor, ...)` with a budget of `fuel` pages. */
  function Walk(env: Env, t: Trace, cursor: string, fuel: nat): (r: WalkResult)
    ensures t.ledger <= r.trace.ledger
    // one request per page, and no request without budget
    ensures |t.requests| <= |r.trace.requests| <= |t.requests| + fuel
    ensures fuel > 0 ==> |r.trace.requests| > |t.requests|
    ensures r.end == OutOfFuel ==> |r.trace.requests| == |t.requests| + fuel
    decreases fuel
  {
    if fuel == 0 then WalkResult(t, OutOfFuel)
    else
      var req := PageRequest(cursor, env.channelIds);
      var t1 := t.(requests := t.requests + [req]);
      match PageOf(env, req)
      case PageRaised => WalkResult(t1, PageFailed)
      case PageJson(code, items, next) =>
        if code != Some(0) then WalkResult(t1, PageFailed)
        else
          var scan := ScanItems(env, t1, items);
          if scan.aborted then WalkResult(scan.trace, WalkFailed)
          else if scan.sawSeen then WalkResult(scan.trace, StoppedAtSeen)
          else if next == "" then WalkResult(scan.trace, LastPage)
          else Walk(env, scan.trace, next, fuel - 1)
  }

  // ---------------------------------------------------------------------------
  // Single items

  /** An item the check reports as recorded is neither sent nor inserted. */
  lemma SeenItemUntouched(env: Env, t: Trace, item: FeedItem)
    requires Seen(env.db, t.ledger, item.entryId) == Returned(true)
    ensures VisitItem(env, t, item) == ItemResult(t, ItemSeen)
  {
  }

  /** The ledger gains at most the item's id, and only when the check reported
      it absent and the detail fetch returned a truthy detail. */
  lemma InsertOnlyWhenUnseenWithDetail(env: Env, t: Trace, item: FeedItem)
    ensures var r := VisitItem(env, t, item);
      r.trace.ledger == t.ledger ||
      (r.trace.ledger == t.ledger + {item.entryId} &&
       Seen(env.db, t.ledger, item.entryId) == Returned(false) &&
       HasDetail(FetchEntryDetail(DetailOf(env, item)).detail))
  {
  }

  /** For an unseen item with a usable detail, the insert is sent whether the
      workflow call was made or skipped for a missing token or workflow id. */
  lemma NewItemRecordedEitherWay(env: Env, t: Trace, item: FeedItem)
    requires Seen(env.db, t.ledger, item.entryId) == Returned(false)
    requires HasDetail(FetchEntryDetail(DetailOf(env, item)).detail)
    requires WorkflowContent(FetchEntryDetail(DetailOf(env, item)).detail.value).Returned?
    requires LedgerAfterInsert(env.db, t.ledger, item.entryId).Returned?
    ensures var r := VisitItem(env, t, item);
      r.end == ItemNew &&
      r.trace.ledger == LedgerAfterInsert(env.db, t.ledger, item.entryId).value &&
      (MayDispatch(env) <==> |r.trace.dispatched| == |t.dispatched| + 1) &&
      (!MayDispatch(env) <==> r.trace.dispatched == t.dispatched)
  {
  }

  // ---------------------------------------------------------------------------
  // Growth: nothing the walk records is ever taken back

  ghost predicate Grows(t0: Trace, t: Trace) {
    && t0.ledger <= t.ledger
    && |t0.requests| <= |t.requests| && t.requests[..|t0.requests|] == t0.requests
    && |t0.dispatched| <= |t.dispatched| && t.dispatched[..|t0.dispatched|] == t0.dispatched
    && |t0.alerts| <= |t.alerts| && t.alerts[..|t0.alerts|] == t0.alerts
  }

  lemma GrowsTransitive(t0: Trace, t1: Trace, t2: Trace)
    requires Grows(t0, t1) && Grows(t1, t2)
    ensures Grows(t0, t2)
  {
    assert t2.requests[..|t0.requests|] == t2.requests[..|t1.requests|][..|t0.requests|];
    assert t2.dispatched[..|t0.dispatched|] == t2.dispatched[..|t1.dispatched|][..|t0.dispatched|];
    assert t2.alerts[..|t0.alerts|] == t2.alerts[..|t1.alerts|][..|t0.alerts|];
  }

  lemma VisitGrows(env: Env, t: Trace, item: FeedItem)
    ensures Grows(t, VisitItem(env, t, item).trace)
    ensures VisitItem(env, t, item).trace.requests == t.requests
  {
  }

  lemma {:induction false} ScanGrows(env: Env, t: Trace, items: seq<FeedItem>)
    ensures Grows(t, ScanItems(env, t, items).trace)
    ensures ScanItems(env, t, items).trace.requests == t.requests
    decreases |items|
  {
    if items != [] {
      var prev := ScanItems(env, t, items[..|items| - 1]);
      ScanGrows(env, t, items[..|items| - 1]);
      if !prev.aborted {
        VisitGrows(env, prev.trace, items[|items| - 1]);
        GrowsTransitive(t, prev.trace, VisitItem(env, prev.trace, items[|items| - 1]).trace);
      }
    }
  }

  /** Ledger entries are only ever added, and the logs only appended to. */
  lemma {:induction false} WalkGrows(env: Env, t: Trace, cursor: string, fuel: nat)
    ensures Grows(t, Walk(env, t, cursor, fuel).trace)
    decreases fuel
  {
    if fuel > 0 {
      var req := PageRequest(cursor, env.channelIds);
      var t1 := t.(requests := t.requests + [req]);
      assert Grows(t, t1);
      match PageOf(env, req)
      case PageRaised =>
      case PageJson(code, items, next) =>
        if code == Some(0) {
          var scan := ScanItems(env, t1, items);
          ScanGrows(env, t1, items);
          GrowsTransitive(t, t1, scan.trace);
          if !scan.aborted && !scan.sawSeen && next != "" {
            WalkGrows(env, scan.trace, next, fuel - 1);
            GrowsTransitive(t, scan.trace, Walk(env, scan.trace, next, fuel - 1).trace);
          }
        }
    }
  }

  // ---------------------------------------------------------------------------
  // A seen item does not break the loop

  /** Continue a page scan with more items. */
  function Resume(env: Env, s: PageScan, ys: seq<FeedItem>): PageScan {
    if s.aborted then s
    else
      var rest := ScanItems(env, s.trace, ys);
      PageScan(rest.trace, s.sawSeen || rest.sawSeen, rest.aborted)
  }

  /** Scanning `xs + ys` is scanning `xs` and then resuming with `ys`. */
  lemma {:induction false} ScanSplit(env: Env, t: Trace, xs: seq<FeedItem>, ys: seq<FeedItem>)
    ensures ScanItems(env, t, xs + ys) == Resume(env, ScanItems(env, t, xs), ys)
    decreases |ys|
  {
    if ys == [] {
      assert xs + ys == xs;
    } else {
      var ys' := ys[..|ys| - 1];
      assert (xs + ys)[..|xs + ys| - 1] == xs + ys';
      assert (xs + ys)[|xs + ys| - 1] == ys[|ys| - 1];
      ScanSplit(env, t, xs, ys');
    }
  }

  /** An item found in the ledger is skipped and the loop goes on: the items
      after it are visited exactly as if it were not on the page, and the page
      is marked as having a seen item. */
  lemma SeenItemDoesNotBreak(env: Env, t: Trace, xs: seq<FeedItem>, item: FeedItem, ys: seq<FeedItem>)
    requires !ScanItems(env, t, xs).aborted
    requires Seen(env.db, ScanItems(env, t, xs).trace.ledger, item.entryId) == Returned(true)
    ensures var s := ScanItems(env, t, xs + [item] + ys);
      var rest := ScanItems(env, ScanItems(env, t, xs).trace, ys);
      s.trace == rest.trace && s.aborted == rest.aborted && s.sawSeen
  {
    var before := ScanItems(env, t, xs);
    ScanSplit(env, t, xs + [item], ys);
    assert (xs + [item])[..|xs + [item]| - 1] == xs;
    SeenItemUntouched(env, before.trace, item);
  }

  /** After an exception the rest of the page is not visited. */
  lemma ScanAbsorbsFailure(env: Env, t: Trace, items: seq<FeedItem>, i: nat)
    requires i <= |items|
    requires ScanItems(env, t, items[..i]).aborted
    ensures ScanItems(env, t, items) == ScanItems(env, t, items[..i])
  {
    ScanSplit(env, t, items[..i], items[i..]);
    assert items[..i] + items[i..] == items;
  }

  // ---------------------------------------------------------------------------
  // Paging

  /** Against a working database, an id of the page that is already in the
      ledger sets the seen flag, unless the scan raised first. */
  lemma {:induction false} HealthySeenDetected(env: Env, t: Trace, items: seq<FeedItem>, k: nat)
    requires Healthy(env.db)
    requires k < |items| && items[k].entryId in t.ledger
    ensures ScanItems(env, t, items).aborted || ScanItems(env, t, items).sawSeen
    decreases |items|
  {
    var init := items[..|items| - 1];
    var prev := ScanItems(env, t, init);
    if k < |items| - 1 {
      HealthySeenDetected(env, t, init, k);
    } else if !prev.aborted {
      ScanGrows(env, t, init);
      HealthyLedger(env.db, prev.trace.ledger, items[k].entryId);
    }
  }

  /** If the first page holds an item already in the ledger (and the database
      works), no further page is requested: the walk makes exactly one request. */
  lemma LedgerHitStopsPaging(env: Env, t: Trace, cursor: string, fuel: nat, k: nat)
    requires Healthy(env.db) && fuel > 0
    requires PageOf(env, PageRequest(cursor, env.channelIds)).PageJson?
    requires PageOf(env, PageRequest(cursor, env.channelIds)).code == Some(0)
    requires k < |PageOf(env, PageRequest(cursor, env.channelIds)).feedList|
    requires PageOf(env, PageRequest(cursor, env.channelIds)).feedList[k].entryId in t.ledger
    ensures var r := Walk(env, t, cursor, fuel);
      r.trace.requests == t.requests + [PageRequest(cursor, env.channelIds)] &&
      (r.end == StoppedAtSeen || r.end == WalkFailed)
  {
    var req := PageRequest(cursor, env.channelIds);
    var t1 := t.(requests := t.requests + [req]);
    var items := PageOf(env, req).feedList;
    HealthySeenDetected(env, t1, items, k);
    ScanGrows(env, t1, items);
  }

  /** The requests a walk makes: the first is for the given cursor; every one
      carries the same channel ids and fixed sort, limit and unread filter; and
      each next one is for the non-empty cursor of a successful page. */
  lemma {:induction false} RequestChain(env: Env, t: Trace, cursor: string, fuel: nat)
    ensures var rs := Walk(env, t, cursor, fuel).trace.requests;
      && |t.requests| <= |rs| && rs[..|t.requests|] == t.requests
      && (fuel > 0 ==> |rs| > |t.requests| && rs[|t.requests|].cursor == cursor)
      && |rs| <= |t.requests| + fuel
      && (forall j :: |t.requests| <= j < |rs| ==> rs[j] == PageRequest(rs[j].cursor, env.channelIds))
      && (forall j :: |t.requests| <= j < |rs| - 1 ==>
            PageOf(env, rs[j]).PageJson? && PageOf(env, rs[j]).code == Some(0) &&
            PageOf(env, rs[j]).nextCursor != "" && rs[j + 1].cursor == PageOf(env, rs[j]).nextCursor)
    decreases fuel
  {
    if fuel > 0 {
      var req := PageRequest(cursor, env.channelIds);
      var t1 := t.(requests := t.requests + [req]);
      match PageOf(env, req)
      case PageRaised =>
      case PageJson(code, items, next) =>
        if code == Some(0) {
          var scan := ScanItems(env, t1, items);
          ScanGrows(env, t1, items);
          if !scan.aborted && !scan.sawSeen && next != "" {
            RequestChain(env, scan.trace, next, fuel - 1);
            var rs := Walk(env, t, cursor, fuel).trace.requests;
            assert rs == Walk(env, scan.trace, next, fuel - 1).trace.requests;
            assert rs[..|t1.requests|] == t1.requests;
            assert rs[..|t.requests|] == rs[..|t1.requests|][..|t.requests|];
            assert rs[|t.requests|] == req;
          }
        }
    }
  }

  // ---------------------------------------------------------------------------
  // With a working database, no item is sent twice and no recorded item is sent

  /** Since `t0`: each call went to an item that was not in the ledger at `t0`
      and is in it now, and no two calls went to the same item. */
  ghost predicate SentOnce(t0: Trace, t: Trace) {
    && Grows(t0, t)
    && (forall i :: |t0.dispatched| <= i < |t.dispatched| ==>
          t.dispatched[i].entryId !in t0.ledger && t.dispatched[i].entryId in t.ledger)
    && (forall i, j :: |t0.dispatched| <= i < j < |t.dispatched| ==>
          t.dispatched[i].entryId != t.dispatched[j].entryId)
  }

  lemma VisitKeepsSentOnce(env: Env, t0: Trace, t: Trace, item: FeedItem)
    requires Healthy(env.db) && SentOnce(t0, t)
    ensures SentOnce(t0, VisitItem(env, t, item).trace)
  {
    HealthyLedger(env.db, t.ledger, item.entryId);
    VisitGrows(env, t, item);
    GrowsTransitive(t0, t, VisitItem(env, t, item).trace);
  }

  lemma {:induction false} ScanKeepsSentOnce(env: Env, t0: Trace, t: Trace, items: seq<FeedItem>)
    requires Healthy(env.db) && SentOnce(t0, t)
    ensures SentOnce(t0, ScanItems(env, t, items).trace)
    decreases |items|
  {
    if items != [] {
      var prev := ScanItems(env, t, items[..|items| - 1]);
      ScanKeepsSentOnce(env, t0, t, items[..|items| - 1]);
      if !prev.aborted {
        VisitKeepsSentOnce(env, t0, prev.trace, items[|items| - 1]);
      }
    }
  }

  lemma {:induction false} WalkKeepsSentOnce(env: Env, t0: Trace, t: Trace, cursor: string, fuel: nat)
    requires Healthy(env.db) && SentOnce(t0, t)
    ensures SentOnce(t0, Walk(env, t, cursor, fuel).trace)
    decreases fuel
  {
    if fuel > 0 {
      var req := PageRequest(cursor, env.channelIds);
      var t1 := t.(requests := t.requests + [req]);
      assert Grows(t, t1);
      GrowsTransitive(t0, t, t1);
      match PageOf(env, req)
      case PageRaised =>
      case PageJson(code, items, next) =>
        if code == Some(0) {
          var scan := ScanItems(env, t1, items);
          ScanKeepsSentOnce(env, t0, t1, items);
          if !scan.aborted && !scan.sawSeen && next != "" {
            WalkKeepsSentOnce(env, t0, scan.trace, next, fuel - 1);
          }
        }
    }
  }

  /** Against a working database, the items a walk sends to the workflow were
      all absent from the ledger when it started, are all in it when it ends,
      and are sent once each. */
  lemma HealthyWalkSendsOnlyUnseenOnce(env: Env, t: Trace, cursor: string, fuel: nat)
    requires Healthy(env.db)
    ensures SentOnce(t, Walk(env, t, cursor, fuel).trace)
  {
    WalkKeepsSentOnce(env, t, t, cursor, fuel);
  }

  // ---------------------------------------------------------------------------
  // With a working database and workflow settings, every new item is processed

  function ItemIds(items: seq<FeedItem>): set<string> {
    set item | item in items :: item.entryId
  }

  /** Every item of the page that is not in the ledger has a truthy detail
      whose text can be read (a recorded item's detail is never fetched). */
  ghost predicate AllDetailsUsable(env: Env, ledger: set<string>, items: seq<FeedItem>) {
    forall i :: 0 <= i < |items| && items[i].entryId !in ledger ==>
      HasDetail(FetchEntryDetail(DetailOf(env, items[i])).detail) &&
      WorkflowContent(FetchEntryDetail(DetailOf(env, items[i])).detail.value).Returned?
  }

  /** One item under the same conditions (a usable detail only needed when it
      is not recorded): it does not raise, ends up in the ledger, and is sent
      to the workflow exactly when it was not recorded. */
  lemma SmoothVisit(env: Env, t: Trace, item: FeedItem)
    requires Healthy(env.db) && MayDispatch(env)
    requires item.entryId !in t.ledger ==>
      HasDetail(FetchEntryDetail(DetailOf(env, item)).detail) &&
      WorkflowContent(FetchEntryDetail(DetailOf(env, item)).detail.value).Returned?
    ensures var r := VisitItem(env, t, item);
      && r.end != ItemFailed
      && r.trace.ledger == t.ledger + {item.entryId}
      && (item.entryId in t.ledger ==> r.trace.dispatched == t.dispatched)
      && (item.entryId !in t.ledger ==>
            |r.trace.dispatched| == |t.dispatched| + 1 &&
            r.trace.dispatched[..|t.dispatched|] == t.dispatched &&
            r.trace.dispatched[|t.dispatched|].entryId == item.entryId)
  {
    HealthyLedger(env.db, t.ledger, item.entryId);
  }

  /** `SmoothVisit` seen from the start of the page: the calls made since
      `base` grow by this item's id exactly when it was not recorded. */
  lemma SmoothStep(env: Env, base: seq<Dispatch>, p: Trace, item: FeedItem)
    requires Healthy(env.db) && MayDispatch(env)
    requires item.entryId !in p.ledger ==>
      HasDetail(FetchEntryDetail(DetailOf(env, item)).detail) &&
      WorkflowContent(FetchEntryDetail(DetailOf(env, item)).detail.value).Returned?
    requires |base| <= |p.dispatched| && p.dispatched[..|base|] == base
    ensures var r := VisitItem(env, p, item);
      && r.end != ItemFailed
      && r.trace.ledger == p.ledger + {item.entryId}
      && |base| <= |r.trace.dispatched| && r.trace.dispatched[..|base|] == base
      && SentIds(r.trace.dispatched[|base|..]) == SentIds(p.dispatched[|base|..]) + ({item.entryId} - p.ledger)
  {
    SmoothVisit(env, p, item);
    var r := VisitItem(env, p, item);
    var news := p.dispatched[|base|..];
    if item.entryId !in p.ledger {
      var d := r.trace.dispatched[|p.dispatched|];
      assert r.trace.dispatched == p.dispatched + [d];
      assert r.trace.dispatched[|base|..] == news + [d];
      SentIdsAppend(news, d);
    } else {
      assert r.trace.dispatched[|base|..] == news;
    }
  }

  /** The other direction of the dedup rule: against a working database, with a
      token and a workflow id, and with usable details, a page scan does not
      abort, records every item of the page, and calls the workflow for exactly
      the ids that were not in the ledger before. */
  lemma {:induction false} SmoothPageRecordsAll(env: Env, t: Trace, items: seq<FeedItem>)
    requires Healthy(env.db) && MayDispatch(env)
    requires AllDetailsUsable(env, t.ledger, items)
    ensures var s := ScanItems(env, t, items);
      && !s.aborted
      && s.trace.ledger == t.ledger + ItemIds(items)
      && |t.dispatched| <= |s.trace.dispatched| && s.trace.dispatched[..|t.dispatched|] == t.dispatched
      && SentIds(s.trace.dispatched[|t.dispatched|..]) == ItemIds(items) - t.ledger
    decreases |items|
  {
    if items == [] {
      assert t.dispatched[|t.dispatched|..] == [];
    } else {
      var init, item := items[..|items| - 1], items[|items| - 1];
      assert items == init + [item];
      assert ItemIds(items) == ItemIds(init) + {item.entryId} by {
        forall x | x in items ensures x in init || x == item { }
      }
      assert AllDetailsUsable(env, t.ledger, init) by {
        forall i | 0 <= i < |init| ensures init[i] == items[i] { }
      }
      SmoothPageRecordsAll(env, t, init);
      var prev := ScanItems(env, t, init);
      assert item.entryId !in prev.trace.ledger ==> item.entryId !in t.ledger;
      SmoothStep(env, t.dispatched, prev.trace, item);
      var r := VisitItem(env, prev.trace, item);
      assert items[..|items| - 1] == init;
      assert ScanItems(env, t, items) == PageScan(r.trace, prev.sawSeen || r.end == ItemSeen, false);
    }
  }
}

=== FILE: feed_walker.dfy ===
/** `fetch_feed_data` (main.py) as the program runs it: the dedup ledger and
    the logs of outside calls are fields updated in place, the loop over
    `feed_list` is a loop, and the recursion on `next_cursor` is a loop over
    pages with a page budget. Each method is proved to end in the state the
    pure walk of module FeedWalk describes. */
module FeedWalker {
  import opened Values
  import opened D1
  import opened Workflow
  import opened EntryDetail
  import opened FeedWalk

  class Walker {
    const env: Env
    var ledger: set<string>
    var requests: seq<FeedRequest>
    var dispatched: seq<Dispatch>
    var alerts: seq<string>

    function Current(): Trace
      reads this
    {
      Trace(ledger, requests, dispatched, alerts)
    }

    constructor (env: Env, ledger: set<string>)
      ensures this.env == env
      ensures Current() == Trace(ledger, [], [], [])
    {
      this.env := env;
      this.ledger := ledger;
      requests, dispatched, alerts := [], [], [];
    }

    /** One pass of the body of `for item in feed_list`. */
    method Visit(item: FeedItem) returns (end: ItemEnd)
      modifies this
      ensures VisitItem(env, old(Current()), item) == ItemResult(Current(), end)
    {
      var seen := Seen(env.db, ledger, item.entryId);
      if seen.Raised? {
        return ItemFailed;
      }
      if seen.value {
        return ItemSeen;
      }
      var fetched := FetchEntryDetail(DetailOf(env, item));
      if fetched.alerted {
        alerts := alerts + [item.entryId];
      }
      if !HasDetail(fetched.detail) {
        return ItemNew;
      }
      var content := WorkflowContent(fetched.detail.value);
      if content.Raised? {
        return ItemFailed;
      }
      if MayDispatch(env) {
        dispatched := dispatched + [Dispatch(item.entryId, CallFor(env, item, content.value))];
      }
      var inserted := LedgerAfterInsert(env.db, ledger, item.entryId);
      if inserted.Raised? {
        return ItemFailed;
      }
      ledger := inserted.value;
      end := ItemNew;
    }

    /** The loop over the items of one page; an exception leaves it. */
    method ScanPage(items: seq<FeedItem>) returns (sawSeen: bool, aborted: bool)
      modifies this
      ensures ScanItems(env, old(Current()), items) == PageScan(Current(), sawSeen, aborted)
      ensures old(ledger) <= ledger
    {
      sawSeen, aborted := false, false;
      var i := 0;
      while i < |items| && !aborted
        invariant 0 <= i <= |items|
        invariant ScanItems(env, old(Current()), items[..i]) == PageScan(Current(), sawSeen, aborted)
      {
        assert items[..i + 1][..i] == items[..i];
        var end := Visit(items[i]);
        if end == ItemSeen {
          sawSeen := true;
        }
        aborted := end == ItemFailed;
        i := i + 1;
      }
      if aborted {
        ScanAbsorbsFailure(env, old(Current()), items, i);
      } else {
        assert items[..i] == items;
      }
      ScanGrows(env, old(Current()), items);
    }

    /** `fetch_feed_data(cursor, ...)`, following at most `fuel` pages. */
    method FetchFeedData(cursor: string, fuel: nat) returns (end: WalkEnd)
      modifies this
      ensures Walk(env, old(Current()), cursor, fuel) == WalkResult(Current(), end)
      ensures old(ledger) <= ledger
    {
      WalkGrows(env, Current(), cursor, fuel);
      var cur, left := cursor, fuel;
      while true
        invariant Walk(env, Current(), cur, left) == Walk(env, old(Current()), cursor, fuel)
        decreases left
      {
        if left == 0 {
          return OutOfFuel;
        }
        var req := PageRequest(cur, env.channelIds);
        requests := requests + [req];
        var reply := PageOf(env, req);
        if reply.PageRaised? || reply.code != Some(0) {
          return PageFailed;
        }
        var sawSeen, aborted := ScanPage(reply.feedList);
        if aborted {
          return WalkFailed;
        }
        if sawSeen {
          return StoppedAtSeen;
        }
        if reply.nextCursor == "" {
          return LastPage;
        }
        cur, left := reply.nextCursor, left - 1;
      }
    }
  }
}

=== FILE: rss_sync.dfy ===
/** The earlier RSS variant (`main` of main_bak.py): after the refresh-token
    rotation, every entry of every configured RSS feed is checked against the
    dedup ledger and every new entry is sent to the workflow and then recorded.
    There is no early stop; an exception anywhere ends the whole run. */
module RssSync {
  import opened Values
  import opened D1
  import opened Workflow
  import opened CozeAuth

  /** One element of a feedparser entry's `content` list. */
  datatype ContentPart = ContentPart(value: string)

  /** A feedparser entry; `content` and `summary` are `None` when the entry has
      no such key. */
  datatype RssEntry = RssEntry(id: string, title: string, content: Option<seq<ContentPart>>, summary: Option<string>)

  /** One element of `config.json`; `rssUrl` is `None` when the key is absent,
      which makes `cfg['rss_url']` raise. */
  datatype RssConfig = RssConfig(rssUrl: Option<string>, spaceId: Option<string>, parentWikiToken: Option<string>)

  /** The outside world: the entries feedparser yields per URL (none for a URL
      it cannot fetch), the D1 database, `COZE_WORKFLOW_ID`, and whether a
      workflow call returns (`false`: it raises). */
  datatype RssEnv = RssEnv(
    feeds: map<string, seq<RssEntry>>,
    db: Database,
    workflowId: Option<string>,
    workflowReturns: WorkflowCall -> bool)

  datatype SyncTrace = SyncTrace(ledger: set<string>, dispatched: seq<Dispatch>)

  /** The state so far and whether an exception ended the run. */
  datatype SyncState = SyncState(trace: SyncTrace, failed: bool)

  /** The text sent for an entry: the first content part, else the summary,
      else the empty string. */
  function ArticleBody(e: RssEntry): (body: string)
    ensures e.content.Some? && |e.content.value| > 0 ==> body == e.content.value[0].value
    ensures !(e.content.Some? && |e.content.value| > 0) && e.summary.Some? ==> body == e.summary.value
    ensures !(e.content.Some? && |e.content.value| > 0) && e.summary.None? ==> body == ""
  {
    if e.content.Some? && |e.content.value| > 0 then e.content.value[0].value
    else if e.summary.Some? then e.summary.value
    else ""
  }

  function EntriesOf(env: RssEnv, url: string): seq<RssEntry> {
    if url in env.feeds then env.feeds[url] else []
  }

  function CallFor(env: RssEnv, token: string, cfg: RssConfig, e: RssEntry): WorkflowCall {
    WorkflowCall(env.workflowId, token, ArticleBody(e), Some(e.title), cfg.spaceId, cfg.parentWikiToken)
  }

  /** The body of `for entry in feed.entries`: check, call, then insert. */
  function SyncEntry(env: RssEnv, token: string, cfg: RssConfig, t: SyncTrace, e: RssEntry): (r: SyncState)
    ensures r.trace.ledger == t.ledger || r.trace.ledger == t.ledger + {e.id}
    ensures r.trace.dispatched == t.dispatched ||
      r.trace.dispatched == t.dispatched + [Dispatch(e.id, CallFor(env, token, cfg, e))]
    // nothing is inserted without a call that returned
    ensures r.trace.ledger != t.ledger ==> !r.failed && |r.trace.dispatched| == |t.dispatched| + 1
  {
    match Seen(env.db, t.ledger, e.id)
    case Raised => SyncState(t, true)
    case Returned(seen) =>
      if seen then SyncState(t, false)
      else
        var call := CallFor(env, token, cfg, e);
        var t1 := t.(dispatched := t.dispatched + [Dispatch(e.id, call)]);
        if !env.workflowReturns(call) then SyncState(t1, true)
        else
          match LedgerAfterInsert(env.db, t1.ledger, e.id)
          case Raised => SyncState(t1, true)
          case Returned(ledger) => SyncState(t1.(ledger := ledger), false)
  }

  /** The loop over one feed's entries, by prefixes. */
  function SyncEntries(env: RssEnv, token: string, cfg: RssConfig, t: SyncTrace, es: seq<RssEntry>): (r: SyncState)
    ensures t.ledger <= r.trace.ledger <= t.ledger + Ids(es)
    // at most one workflow call per entry
    ensures |t.dispatched| <= |r.trace.dispatched| <= |t.dispatched| + |es|
    decreases |es|
  {
    if es == [] then SyncState(t, false)
    else
      var prev := SyncEntries(env, token, cfg, t, es[..|es| - 1]);
      if prev.failed then prev else SyncEntry(env, token, cfg, prev.trace, es[|es| - 1])
  }

  /** One configured feed. */
  function SyncConfig(env: RssEnv, token: string, t: SyncTrace, cfg: RssConfig): (r: SyncState)
    ensures cfg.rssUrl.None? ==> r == SyncState(t, true)
    ensures t.ledger <= r.trace.ledger
    ensures cfg.rssUrl.Some? ==> r.trace.ledger <= t.ledger + Ids(EntriesOf(env, cfg.rssUrl.value))
  {
    match cfg.rssUrl
    case None => SyncState(t, true)
    case Some(url) => SyncEntries(env, token, cfg, t, EntriesOf(env, url))
  }

  /** The loop over the configured feeds, by prefixes. */
  function SyncConfigs(env: RssEnv, token: string, t: SyncTrace, cs: seq<RssConfig>): (r: SyncState)
    ensures t.ledger <= r.trace.ledger <= t.ledger + ConfigIds(env, cs)
    decreases |cs|
  {
    if cs == [] then SyncState(t, false)
    else
      var prev := SyncConfigs(env, token, t, cs[..|cs| - 1]);
      if prev.failed then prev else SyncConfig(env, token, prev.trace, cs[|cs| - 1])
  }

  // ---------------------------------------------------------------------------
  // Single entries

  /** An entry the check reports as recorded gets no call and no insert. */
  lemma SeenEntrySkipped(env: RssEnv, token: string, cfg: RssConfig, t: SyncTrace, e: RssEntry)
    requires Seen(env.db, t.ledger, e.id) == Returned(true)
    ensures SyncEntry(env, token, cfg, t, e) == SyncState(t, false)
  {
  }

  /** The ledger gains the entry only after its workflow call returned; a call
      that raises ends the run with nothing inserted. */
  lemma InsertOnlyAfterCallReturns(env: RssEnv, token: string, cfg: RssConfig, t: SyncTrace, e: RssEntry)
    ensures var r := SyncEntry(env, token, cfg, t, e);
      r.trace.ledger == t.ledger ||
      (Seen(env.db, t.ledger, e.id) == Returned(false) &&
       env.workflowReturns(CallFor(env, token, cfg, e)) &&
       r.trace.dispatched == t.dispatched + [Dispatch(e.id, CallFor(env, token, cfg, e))] &&
       r.trace.ledger == t.ledger + {e.id})
    ensures Seen(env.db, t.ledger, e.id) == Returned(false) && !env.workflowReturns(CallFor(env, token, cfg, e)) ==>
      SyncEntry(env, token, cfg, t, e) ==
      SyncState(t.(dispatched := t.dispatched + [Dispatch(e.id, CallFor(env, token, cfg, e))]), true)
  {
  }

  // ---------------------------------------------------------------------------
  // Order and failure

  /** Continue a run with more configured feeds. */
  function ResumeConfigs(env: RssEnv, token: string, s: SyncState, cs: seq<RssConfig>): SyncState {
    if s.failed then s else SyncConfigs(env, token, s.trace, cs)
  }

  /** Feeds are handled strictly one after the other: running `cs1 + cs2` is
      running `cs1` and then, unless it failed, `cs2` from where it left off. */
  lemma {:induction false} ConfigsInOrder(env: RssEnv, token: string, t: SyncTrace, cs1: seq<RssConfig>, cs2: seq<RssConfig>)
    ensures SyncConfigs(env, token, t, cs1 + cs2) == ResumeConfigs(env, token, SyncConfigs(env, token, t, cs1), cs2)
    decreases |cs2|
  {
    if cs2 == [] {
      assert cs1 + cs2 == cs1;
    } else {
      assert (cs1 + cs2)[..|cs1 + cs2| - 1] == cs1 + cs2[..|cs2| - 1];
      assert (cs1 + cs2)[|cs1 + cs2| - 1] == cs2[|cs2| - 1];
      ConfigsInOrder(env, token, t, cs1, cs2[..|cs2| - 1]);
    }
  }

  /** Once a feed fails, the later feeds are neither read nor recorded. */
  lemma ConfigFailureIsFinal(env: RssEnv, token: string, t: SyncTrace, cs: seq<RssConfig>, k: nat)
    requires k <= |cs| && SyncConfigs(env, token, t, cs[..k]).failed
    ensures SyncConfigs(env, token, t, cs) == SyncConfigs(env, token, t, cs[..k])
  {
    ConfigsInOrder(env, token, t, cs[..k], cs[k..]);
    assert cs[..k] + cs[k..] == cs;
  }

  /** Once an entry fails, the later entries of the feed are untouched. */
  lemma {:induction false} EntryFailureIsFinal(env: RssEnv, token: string, cfg: RssConfig, t: SyncTrace, es: seq<RssEntry>, k: nat)
    requires k <= |es| && SyncEntries(env, token, cfg, t, es[..k]).failed
    ensures SyncEntries(env, token, cfg, t, es) == SyncEntries(env, token, cfg, t, es[..k])
    decreases |es|
  {
    if k < |es| {
      assert es[..|es| - 1][..k] == es[..k];
      EntryFailureIsFinal(env, token, cfg, t, es[..|es| - 1], k);
    } else {
      assert es[..k] == es;
    }
  }

  // ---------------------------------------------------------------------------
  // No early stop

  function Ids(es: seq<RssEntry>): set<string> {
    set e | e in es :: e.id
  }

  /** The ids of the entries of all feeds that have a URL. */
  function ConfigIds(env: RssEnv, cs: seq<RssConfig>): set<string>
    decreases |cs|
  {
    if cs == [] then {}
    else
      var last := cs[|cs| - 1];
      ConfigIds(env, cs[..|cs| - 1]) + (if last.rssUrl.Some? then Ids(EntriesOf(env, last.rssUrl.value)) else {})
  }

  /** Everything works: the database answers, no workflow call raises. */
  ghost predicate Smooth(env: RssEnv) {
    Healthy(env.db) && forall c :: env.workflowReturns(c)
  }

  /** A smooth pass over a feed records every entry and calls the workflow for
      exactly the entries that were not recorded before. */
  lemma {:induction false} SmoothFeedRecordsAll(env: RssEnv, token: string, cfg: RssConfig, t: SyncTrace, es: seq<RssEntry>)
    requires Smooth(env)
    ensures var r := SyncEntries(env, token, cfg, t, es);
      && !r.failed
      && r.trace.ledger == t.ledger + Ids(es)
      && |t.dispatched| <= |r.trace.dispatched| && r.trace.dispatched[..|t.dispatched|] == t.dispatched
      && SentIds(r.trace.dispatched[|t.dispatched|..]) == Ids(es) - t.ledger
    decreases |es|
  {
    if es == [] {
      assert t.dispatched[|t.dispatched|..] == [];
    } else {
      var init, e := es[..|es| - 1], es[|es| - 1];
      assert es == init + [e];
      assert Ids(es) == Ids(init) + {e.id} by {
        forall x | x in es ensures x in init || x == e { }
      }
      SmoothFeedRecordsAll(env, token, cfg, t, init);
      var prev := SyncEntries(env, token, cfg, t, init);
      SmoothEntryStep(env, token, cfg, t.dispatched, prev.trace, e);
      assert es[..|es| - 1] == init;
    }
  }

  /** One entry of a smooth pass, seen from the start of the feed: the calls
      made since `base` grow by this entry's id exactly when it was not
      recorded, and the entry ends up recorded. */
  lemma SmoothEntryStep(env: RssEnv, token: string, cfg: RssConfig, base: seq<Dispatch>, p: SyncTrace, e: RssEntry)
    requires Smooth(env)
    requires |base| <= |p.dispatched| && p.dispatched[..|base|] == base
    ensures var r := SyncEntry(env, token, cfg, p, e);
      && !r.failed
      && r.trace.ledger == p.ledger + {e.id}
      && |base| <= |r.trace.dispatched| && r.trace.dispatched[..|base|] == base
      && SentIds(r.trace.dispatched[|base|..]) == SentIds(p.dispatched[|base|..]) + ({e.id} - p.ledger)
  {
    var news := p.dispatched[|base|..];
    HealthyLedger(env.db, p.ledger, e.id);
    var r := SyncEntry(env, token, cfg, p, e);
    if e.id in p.ledger {
      assert r.trace == p;
    } else {
      assert env.workflowReturns(CallFor(env, token, cfg, e));
      var d := Dispatch(e.id, CallFor(env, token, cfg, e));
      assert r.trace.dispatched == p.dispatched + [d];
      assert r.trace.dispatched[|base|..] == news + [d];
      SentIdsAppend(news, d);
    }
  }

  /** No early stop: a smooth run records the entries of every configured feed
      and calls the workflow once for each id that was not yet recorded. */
  lemma {:induction false} SmoothRunRecordsAll(env: RssEnv, token: string, t: SyncTrace, cs: seq<RssConfig>)
    requires Smooth(env)
    requires forall i :: 0 <= i < |cs| ==> cs[i].rssUrl.Some?
    ensures var r := SyncConfigs(env, token, t, cs);
      && !r.failed
      && r.trace.ledger == t.ledger + ConfigIds(env, cs)
      && |t.dispatched| <= |r.trace.dispatched| && r.trace.dispatched[..|t.dispatched|] == t.dispatched
      && SentIds(r.trace.dispatched[|t.dispatched|..]) == ConfigIds(env, cs) - t.ledger
    decreases |cs|
  {
    if cs == [] {
      assert t.dispatched[|t.dispatched|..] == [];
    } else {
      var init, cfg := cs[..|cs| - 1], cs[|cs| - 1];
      assert forall i :: 0 <= i < |init| ==> init[i].rssUrl.Some?;
      SmoothRunRecordsAll(env, token, t, init);
      var prev := SyncConfigs(env, token, t, init);
      var es := EntriesOf(env, cfg.rssUrl.value);
      assert ConfigIds(env, cs) == ConfigIds(env, init) + Ids(es);
      SmoothFeedRecordsAll(env, token, cfg, prev.trace, es);
      var r := SyncConfigs(env, token, t, cs);
      assert r == SyncEntries(env, token, cfg, prev.trace, es);
      var oldNews := prev.trace.dispatched[|t.dispatched|..];
      var newNews := r.trace.dispatched[|prev.trace.dispatched|..];
      SentIdsSplit(t.dispatched, prev.trace.dispatched, r.trace.dispatched);
      assert SentIds(r.trace.dispatched[|t.dispatched|..]) == SentIds(oldNews) + SentIds(newNews);
      assert SentIds(oldNews) == ConfigIds(env, init) - t.ledger;
      assert SentIds(newNews) == Ids(es) - (t.ledger + ConfigIds(env, init));
    }
  }

  // ---------------------------------------------------------------------------
  // The run as the program performs it

  class Syncer {
    const env: RssEnv
    var ledger: set<string>
    var dispatched: seq<Dispatch>

    function Current(): SyncTrace
      reads this
    {
      SyncTrace(ledger, dispatched)
    }

    constructor (env: RssEnv, ledger: set<string>)
      ensures this.env == env && Current() == SyncTrace(ledger, [])
    {
      this.env := env;
      this.ledger := ledger;
      dispatched := [];
    }

    /** One entry: the dedup check, the workflow call, the insert. */
    method SyncOne(token: string, cfg: RssConfig, e: RssEntry) returns (failed: bool)
      modifies this
      ensures SyncEntry(env, token, cfg, old(Current()), e) == SyncState(Current(), failed)
    {
      var seen := Seen(env.db, ledger, e.id);
      if seen.Raised? {
        return true;
      }
      if seen.value {
        return false;
      }
      var call := CallFor(env, token, cfg, e);
      dispatched := dispatched + [Dispatch(e.id, call)];
      if !env.workflowReturns(call) {
        return true;
      }
      var inserted := LedgerAfterInsert(env.db, ledger, e.id);
      if inserted.Raised? {
        return true;
      }
      ledger := inserted.value;
      failed := false;
    }

    /** The inner loop over one feed's entries, left on the first exception. */
    method SyncFeed(token: string, cfg: RssConfig, entries: seq<RssEntry>) returns (failed: bool)
      modifies this
      ensures SyncEntries(env, token, cfg, old(Current()), entries) == SyncState(Current(), failed)
    {
      failed := false;
      var j := 0;
      while j < |entries| && !failed
        invariant 0 <= j <= |entries|
        invariant SyncEntries(env, token, cfg, old(Current()), entries[..j]) == SyncState(Current(), failed)
      {
        assert entries[..j + 1][..j] == entries[..j];
        failed := SyncOne(token, cfg, entries[j]);
        j := j + 1;
      }
      if failed {
        EntryFailureIsFinal(env, token, cfg, old(Current()), entries, j);
      } else {
        assert entries[..j] == entries;
      }
    }

    /** The outer loop of `main` over the configured feeds, after the token
        was obtained. */
    method SyncFeeds(token: string, configs: seq<RssConfig>) returns (failed: bool)
      modifies this
      ensures SyncConfigs(env, token, old(Current()), configs) == SyncState(Current(), failed)
    {
      failed := false;
      var i := 0;
      while i < |configs| && !failed
        invariant 0 <= i <= |configs|
        invariant SyncConfigs(env, token, old(Current()), configs[..i]) == SyncState(Current(), failed)
      {
        assert configs[..i + 1][..i] == configs[..i];
        var cfg := configs[i];
        if cfg.rssUrl.None? {
          failed := true;
        } else {
          failed := SyncFeed(token, cfg, EntriesOf(env, cfg.rssUrl.value));
        }
        i := i + 1;
      }
      if failed {
        ConfigFailureIsFinal(env, token, old(Current()), configs, i);
      } else {
        assert configs[..i] == configs;
      }
    }
  }

  /** `main` of main_bak.py: rotate the refresh token first; if that raises,
      no feed is read and nothing is recorded. */
  method RunSync(store: CredentialStore, syncer: Syncer, exchange: Exchange, put: PutOutcome, configs: seq<RssConfig>)
    returns (failed: bool)
    modifies store, syncer
    ensures var rot := Rotate(old(store.kv), old(store.events), exchange, put);
      && store.kv == rot.kv && store.events == rot.events
      && (rot.result.Raised? ==> failed && syncer.Current() == old(syncer.Current()))
      && (rot.result.Returned? ==>
            SyncConfigs(syncer.env, rot.result.value, old(syncer.Current()), configs) == SyncState(syncer.Current(), failed))
  {
    var token := store.GetCozeAuth(exchange, put);
    if token.Raised? {
      return true;
    }
    failed := syncer.SyncFeeds(token.value, configs);
  }
}

=== FILE: values.dfy ===
/** Small value types shared by the whole model: an optional value, the three
    states of a member of a JSON object, and the outcome of a Python call that
    may raise. */
module Values {

  datatype Option<+T> = None | Some(value: T)

  /** A member of a decoded JSON object: absent, present as `null`, or present
      with a value. Python's `obj.get(key, default)` yields the default only in
      the first case and `None` in the second. */
  datatype Field<+T> = Missing | Null | Present(value: T)

  /** The outcome of a Python call: it raised, or it returned a value. */
  datatype Outcome<+T> = Raised | Returned(value: T)

  /** Python truthiness of a value that is either `None` or a `str`. */
  predicate Truthy(s: Option<string>) {
    s.Some? && s.value != ""
  }
}

=== FILE: workflow.dfy ===
/** A call to the Coze workflow API (`coze.workflows.runs.create`), recorded
    with the item it was made for. */
module Workflow {
  import opened Values

  datatype WorkflowCall = WorkflowCall(
    workflowId: Option<string>,
    accessToken: string,
    content: string,
    title: Option<string>,
    spaceId: Option<string>,
    parentWikiToken: Option<string>)

  datatype Dispatch = Dispatch(entryId: string, call: WorkflowCall)

  /** The ids of the items a log of calls went to. */
  function SentIds(ds: seq<Dispatch>): set<string> {
    set d | d in ds :: d.entryId
  }

  lemma SentIdsAppend(ds: seq<Dispatch>, d: Dispatch)
    ensures SentIds(ds + [d]) == SentIds(ds) + {d.entryId}
  {
    forall x | x in ds + [d] ensures x in ds || x == d { }
  }

  /** The calls made between two points of a growing log are those made
      before the middle point and those made after it. */
  lemma SentIdsSplit(a: seq<Dispatch>, b: seq<Dispatch>, c: seq<Dispatch>)
    requires |a| <= |b| <= |c| && b[..|a|] == a && c[..|b|] == b
    ensures c[..|a|] == a
    ensures SentIds(c[|a|..]) == SentIds(b[|a|..]) + SentIds(c[|b|..])
  {
    assert c[|a|..] == b[|a|..] + c[|b|..];
    forall x | x in b[|a|..] + c[|b|..] ensures x in b[|a|..] || x in c[|b|..] { }
  }
}
